=== FILE: README.md ===
# Long-running query agent — Dafny model

This project models the orchestration core of a small agent that runs a SQL
query against a slow, asynchronous query service (a mock of Amazon Athena).
The agent is a three-node graph:

- **submit** — the query is sent to the client and the returned id is stored;
- **poll** — the status is read from the client and the poll is counted;
- **fetch** — on success the rows are fetched and summarised.

A router after the poll node checks the reported status first and the retry
budget second. It chooses between fetching, polling again after a wait, and
stopping. A hosted entry point (`invoke`) builds the initial state from a request
payload, runs the graph, and turns the final state into a tagged response:
`success`, `failed`, `timeout` or `error`. The mock client keeps a table of jobs.
A job reports SUCCEEDED once its duration has elapsed since submission.

Modules:

- `Common` (common.dfy): `Option` and `Result`. `Err` stands for a raised exception and carries its message.
- `Decimal` (decimal.dfy): the decimal rendering used in `f"Retrieved {n} rows"` and in the timeout message, and a parser proved to invert it.
- `AthenaMock` (athena_mock.dfy): the job table, which is a map from id to job. It comes with the table invariant (results present iff SUCCEEDED, never FAILED) and the three client operations. Time is an integer tick `now`. A fresh id replaces the random UUID.
- `Agent` (agent.dfy): the agent state, the three nodes, the router, and the graph.
  - The graph is run against a `Backend`: the client's replies to submission, to the n-th status call, and to the results call. Any of these replies may be a raised error, and any status may come back, FAILED included.
  - A run also records its events: each client call, and each wait of the router.
  - The loop is given twice: as the recursive `RunFromPoll`, and as the `while` loop of `Execute`, which is proved to perform the same run. `StoppedRun` and `StopPoll` describe the run in closed form: the loop stops at the first poll that does not report RUNNING, or at the first poll that uses up the budget, or at the first poll when a negative interval makes the wait raise.
- `AgentCore` (agentcore.dfy): payload defaulting, the initial state, response classification, and end-to-end lemmas about `invoke`. The environment settings are an explicit `Config`; their defaults are 10 ticks for the mock job, 2 for the poll interval, and 20 retries.

Some consequences of the code that the model keeps as written:

- The edge from submit to poll is unconditional. So a budget of `max_retries <= 0`
  still makes exactly one status call, not zero (`RunGraphPolls`, `AllRunningTimesOut`).
- A rejected submission is not a separate outcome. Like any other exception it
  becomes the `error` response with the exception's message (`InvokeReportsStopPoll`).
- The router does not test for RUNNING. Any status other than SUCCEEDED and FAILED
  is handled like RUNNING, and any such final status is reported as `timeout`.
- The wait is `time.sleep` of the configured interval, which raises
  "sleep length must be non-negative" when that interval is negative. So with
  a negative `POLL_INTERVAL` the first RUNNING report within the budget ends the
  run, and `invoke` answers `error` with that message (`InvokeReportsStopPoll`,
  `InvokeTimesOut`, `InvokeFailsAt`, `InvokeSucceedsAt`).
- There is no cancellation.

## Model

| member | source | states |
|---|---|---|
| AthenaMock.StatusValue | athena_mock.py:7-10 | each status has a non-empty value string that parses back to that status, so the agent's stored string identifies the reported status |
| AthenaMock.FreshId | athena_mock.py:21 | the new id is non-empty and is used by no entry of the table, which is what the UUID is relied on for |
| AthenaMock.ExecuteSQL | athena_mock.py:19-29 | returns a fresh non-empty id; the table gains exactly that key, whose job is RUNNING with no results, the given SQL, start tick and duration; all other entries are unchanged; the table invariant is preserved |
| AthenaMock.GetQueryStatus | athena_mock.py:31-48 | unknown id raises "not found"; otherwise the answer is SUCCEEDED iff the job had succeeded or `now - start >= duration`; the stored status equals the answer; only the queried entry may change, and its submission fields never do; on a valid table it preserves the invariant and never answers FAILED |
| AthenaMock.GetQueryResults | athena_mock.py:50-59 | unknown id raises "not found"; a known job that is not SUCCEEDED raises "not yet completed"; otherwise it returns exactly the rows stored in the job, which are the three mock rows with Alice first; the table is not changed |
| AthenaMock.StatusHistoryCharacterized | athena_mock.py:37-48 | over any sequence of status checks of a known job: every check answers, none says FAILED, and check i says SUCCEEDED exactly when the job had already succeeded or its duration had elapsed at some tick up to i |
| AthenaMock.StatusMonotone | athena_mock.py:39-48 | once a status check has reported SUCCEEDED, every later check reports SUCCEEDED |
| AthenaMock.ZeroDurationCompletesAtOnce | athena_mock.py:37-59 | a job submitted with duration 0 is SUCCEEDED at its first check at or after submission, after which fetching returns the three mock rows |
| Agent.SubmitAthenaQuery | agent.py:24-38 | sets the id to the client's id, the status to RUNNING and the retry count to 0; the request fields and the analysis are unchanged |
| Agent.PollAthenaStatus | agent.py:42-56 | increments the retry count by exactly one and stores the reported status; the id, the analysis and the request fields are unchanged |
| Agent.FetchAthenaResults | agent.py:60-80 | for any rows, the empty sequence included: the data are the rows, `total_rows` equals their number, and the summary is exactly "Retrieved N rows" with N the shortest decimal numeral of that number, which reads back as the number; no other field changes |
| Agent.ShouldContinuePolling | agent.py:84-99 | fetch iff the status is SUCCEEDED, whatever the budget; end iff the status is FAILED, or it is neither and the budget is spent; poll again otherwise |
| Agent.RunFromPoll | agent.py:115-123 | the loop from the poll node always starts with a status call for the stored id; a normal end comes after at least one more poll and within the budget unless it is the first poll; it comes only on SUCCEEDED, FAILED or a spent budget (a negative wait raises instead of polling again); the id and request fields are kept. The full run is given by RunFromPollStops |
| Agent.RunGraph | agent.py:113-124 | the graph first submits the query with the requested duration; a raised submission ends the run at once with that message; a normal end carries the submitted id, the request fields, and between 1 and max(max_retries, 1) polls. The full run is given by RunGraphPolls |
| Agent.AgentGraphTiming | agent.py:29-98 | agent.py's graph asks the mock for a 100-tick job, and every wait between polls lasts 2 ticks |
| Agent.PollEvents | agent.py:113-123 | n polls are 2n-1 events that alternate between a status call with the id and a wait of the poll interval |
| Agent.StopPoll | agent.py:88-99 | the stopping poll comes after the polls already made; every poll before it reported RUNNING; it reports something else, reaches the budget, or is the next poll when the interval is negative; it lies within the budget unless it is the first |
| Agent.RunFromPollStops | agent.py:115-124 | the loop from the poll node is the run that polls up to `StopPoll` with waits between polls; that last reply raises, or leads to a fetch when it is SUCCEEDED, or ends the run with the reported status |
| Agent.RunGraphPolls | agent.py:113-124 | after a submission, a run makes between 1 and max(max_retries, 1) status calls, exactly 1 when max_retries <= 1, all with the submitted id; it fetches at most once, as its last event, and only when the last poll reported SUCCEEDED; a normal end has retry_count equal to the number of polls, the same request fields, and the fetched rows' analysis exactly when the status is SUCCEEDED; the run raises exactly when the last status request raised, the fetch raised, or the wait after a RUNNING report within the budget raised (only for a negative interval), and ends with that message |
| Agent.AllRunningTimesOut | agent.py:88-124 | if every poll reports RUNNING, the run never fetches; it makes exactly max(max_retries, 1) polls and ends RUNNING with that retry count, except that with a negative interval and a budget above 1 the first wait raises after one poll |
| Agent.StopsAt | agent.py:88-99 | if polls 1..k-1 report RUNNING, poll k reports something else, and k is within the budget or is the first poll (the only reachable one under a negative interval), the loop stops at poll k |
| Agent.FailedAtPollStops | agent.py:88-124 | FAILED at poll k ends the run there, with retry_count k, status FAILED, k status calls and no fetch; under a negative interval with k > 1 the first wait raises after one poll instead |
| Agent.SucceededAtPollFetches | agent.py:88-124 | SUCCEEDED at poll k fetches exactly once, even when k is the last allowed poll; the run ends with retry_count k and the analysis of the fetched rows; under a negative interval with k > 1 the first wait raises after one poll, with no fetch |
| Agent.Execute | agent.py:103-126 | the explicit loop (submit, then poll/route/wait until the router leaves the poll node or the wait raises) performs exactly the run of the recursive graph definition, events included |
| AgentCore.QueryOf | agentcore_agent.py:166 | a non-empty `sql_query` wins; otherwise a present prompt is used, even an empty one; otherwise the default; so the query is empty only when an empty prompt was given |
| AgentCore.MaxRetriesOf | agentcore_agent.py:167 | the budget is the payload's value whenever the key is present, of any value, and the configured default otherwise |
| AgentCore.InitialState | agentcore_agent.py:170-178 | the graph starts with the payload's query and budget, an empty id and status, zero polls and no analysis |
| AgentCore.Classify | agentcore_agent.py:193-219 | the `status` string is "error", "success", "failed" or "timeout" accordingly; an exception becomes `error` with its message; otherwise SUCCEEDED gives `success` with the analysis, FAILED gives `failed`, and any other status gives `timeout`, whose message is exactly "Query timed out after N polling attempts" with N the budget (and reads back as N); all three carry the id and polls equal to retry_count |
| AgentCore.Invoke | agentcore_agent.py:155-219 | the response is `error` exactly when the graph raised, and then it carries the raised message; any other response carries the submitted id and between 1 and max(budget, 1) polls |
| AgentCore.InvokeReportsStopPoll | agentcore_agent.py:104-219 | a rejected submission is `error` with the raised message; otherwise the response reports the stopping poll (between 1 and max(budget, 1)); `success` only after a SUCCEEDED report and carries the fetched rows with total_rows equal to their number; `failed` only after FAILED; `timeout` only after RUNNING with the budget spent; `error` exactly when the stopping status request raised, or it reported SUCCEEDED and the results request raised, or it reported RUNNING within the budget and the wait raised on a negative interval (then the stopping poll is the first), and then it carries that request's or the wait's message |
| AgentCore.NoFailedReportNoFailure | agentcore_agent.py:193-213 | a backend that never reports FAILED to any poll, as the mock never does, never produces a `failed` response |
| AgentCore.InvokeTimesOut | agentcore_agent.py:104-219 | a query that stays RUNNING gives `timeout` with polls max(budget, 1) and the message naming the budget; with a negative poll interval and a budget above 1 it gives `error` with the sleep message |
| AgentCore.InvokeFailsAt | agentcore_agent.py:104-219 | FAILED at poll k within the budget gives `failed` with polls k and the fixed failure message; with a negative poll interval and k > 1 it gives `error` with the sleep message |
| AgentCore.InvokeSucceedsAt | agentcore_agent.py:104-219 | SUCCEEDED at poll k within the budget gives `success` with polls k and a result that carries and counts the fetched rows; with a negative poll interval and k > 1 it gives `error` with the sleep message |
| AgentCore.EmptyPayloadUsesDefaults | agentcore_agent.py:166-190 | an empty payload under the default configuration submits the default query with a 10-tick duration and, if the job never finishes, times out after 20 polls with "Query timed out after 20 polling attempts" |

## Left out

- invoke_agent_example.py: a remote invocation over the network that streams and decodes the response. invoke_agent_example.py is not part of this model.
- `time.sleep` in the router is a `Wait(seconds)` event in the run's trace, with no delay; a negative interval raises "sleep length must be non-negative" as CPython's `time.sleep` does. `time.time()` in the mock is an integer tick argument, so elapsed time is integer ticks, not floating-point seconds.
- `uuid.uuid4()`: only freshness is modelled. `FreshId` builds an id longer than every id in the table.
- Environment and `.env` loading, `AWS_REGION` and `LOG_LEVEL` are left out. `ATHENA_MOCK_DURATION`, `POLL_INTERVAL` and `MAX_RETRIES` are the explicit `Config`. They are taken as already-parsed integers: the `int(...)` conversion of a malformed value, which would raise (inside the graph for `ATHENA_MOCK_DURATION` and `POLL_INTERVAL`, and before it for `MAX_RETRIES`), is not modelled.
- The hosting app (`BedrockAgentCoreApp`, the entrypoint decorator, `app.run()`) and agent.py's `__main__` script are thin shells around the modelled functions.
- LangGraph's `StateGraph` is replaced by the explicit loop with the same edges. Its merging of returned dictionaries into the state is modelled as record update.
- LangGraph's recursion limit is not modelled. `graph.invoke` is called without a config, so the library's default limit of 25 steps applies, and one run executes 1 + polls + fetches nodes. A run needing more steps raises inside the library, and `invoke` reports that as `error`. For example, a budget of 30 with a job that stays RUNNING gives `error`, not `timeout`. agent.py's own script also stops this way: it has a budget of 50 and a 100-tick job polled every 2 ticks. The members listed below describe the loop's edges, and they describe `graph.invoke` only while the step count stays within that limit.
- Agent.RunGraph: describes the loop as wired; it describes `graph.invoke` only while 1 + polls + fetches stays within LangGraph's recursion limit.
- Agent.RunFromPoll: describes the loop as wired; it describes `graph.invoke` only while 1 + polls + fetches stays within LangGraph's recursion limit.
- Agent.RunGraphPolls: describes the loop as wired; it describes `graph.invoke` only while 1 + polls + fetches stays within LangGraph's recursion limit.
- Agent.AllRunningTimesOut: describes the loop as wired; it describes `graph.invoke` only while 1 + polls + fetches stays within LangGraph's recursion limit.
- Agent.FailedAtPollStops: describes the loop as wired; it describes `graph.invoke` only while 1 + polls + fetches stays within LangGraph's recursion limit.
- Agent.SucceededAtPollFetches: describes the loop as wired; it describes `graph.invoke` only while 1 + polls + fetches stays within LangGraph's recursion limit.
- Agent.Execute: describes the loop as wired; it describes `graph.invoke` only while 1 + polls + fetches stays within LangGraph's recursion limit.
- AgentCore.Invoke: with a budget above about 24 the program can answer `error` where this member states `timeout`, `failed` or `success`, because the recursion limit is not modelled.
- AgentCore.InvokeReportsStopPoll: with a budget above about 24 the program can answer `error` where this member states `timeout`, `failed` or `success`, because the recursion limit is not modelled.
- AgentCore.InvokeTimesOut: with a budget above about 24 the program can answer `error` where this member states `timeout`, `failed` or `success`, because the recursion limit is not modelled.
- AgentCore.InvokeFailsAt: with a budget above about 24 the program can answer `error` where this member states `timeout`, `failed` or `success`, because the recursion limit is not modelled.
- AgentCore.InvokeSucceedsAt: with a budget above about 24 the program can answer `error` where this member states `timeout`, `failed` or `success`, because the recursion limit is not modelled.
- All printing.
- The module-level shared client: the graph is run against a `Backend` of replies, not against the mock table itself. The mock's answer histories are proved monotone and FAILED-free on their own (`StatusHistoryCharacterized`), and `NoFailedReportNoFailure` takes that fact as its hypothesis.
- Payload values are modelled as a string for `sql_query` and `prompt` and an integer for `max_retries`, each possibly missing. A present JSON `null`, or a value of another type, is not modelled.
- Rows are the mock's three-column record. The agent only copies and counts them.
- AthenaMock.ExecuteSQL: the default `sleep_seconds = 5` is not modelled; both agents always pass a duration, so the model takes it as an explicit argument.
- AthenaMock.GetQueryResults: requires the table invariant. A SUCCEEDED entry without results cannot arise from the mock's own operations, and the code would return `None` for one.
- Cancellation and a separate submission-error outcome: the code implements neither.

=== FILE: agent.dfy ===
/** The three-node query agent: submit, then poll until the router leaves
    the poll node, then fetch on success. The client is abstracted as a
    `Backend` that answers each call, so that the graph can be run against
    any sequence of reported statuses, including FAILED and raised errors. */
module Agent {

  import opened Common
  import opened Decimal
  import opened AthenaMock

  /** The mock duration the submit node asks for. */
  const SubmitSleepSeconds := 100
  /** The wait the router performs before polling again. */
  const PollIntervalSeconds := 2
  /** The message with which the router's wait raises when the interval is
      negative. */
  const NegativeSleepMessage := "sleep length must be non-negative"

  /** `analysis_result`: `{}` until the fetch node fills it in. */
  datatype Analysis = NoAnalysis | Analysis(totalRows: int, summary: string, data: seq<Row>)

  datatype AgentState = AgentState(
    sqlQuery: string,
    queryExecutionId: string,
    athenaStatus: string,
    retryCount: int,
    maxRetries: int,
    analysisResult: Analysis,
    error: string)

  /** The fields that describe the request; no node writes them. */
  predicate SameRequest(a: AgentState, b: AgentState) {
    a.sqlQuery == b.sqlQuery && a.maxRetries == b.maxRetries && a.error == b.error
  }

  /** What the graph does outside its own state: each client call it makes,
      and each wait of the router. */
  datatype Event =
    | SubmitCall(sql: string, sleepSeconds: int)
    | StatusCall(queryId: string)
    | ResultsCall(queryId: string)
    | Wait(seconds: int)

  /** The client's answers. `statusReply(n)` answers the n-th status call
      (counting from 1); `Err` carries the message of a raised exception. */
  datatype Backend = Backend(
    submitReply: Result<string, string>,
    statusReply: nat -> Result<QueryStatus, string>,
    resultsReply: Result<seq<Row>, string>)

  /** A run of the graph: the events in order, and the final state or the
      message of the exception that ended it. */
  datatype Run = Run(events: seq<Event>, final: Result<AgentState, string>)

  /** The router's three answers. */
  datatype Next = FetchResults | PollStatus | End

  /** The summary line `f"Retrieved {n} rows"`. */
  function Summary(n: nat): string {
    "Retrieved " + NatToString(n) + " rows"
  }

  /** Reads the row count back out of a summary line. */
  function ParseSummary(s: string): Option<nat> {
    if |s| >= 15 && s[..10] == "Retrieved " && s[|s| - 5..] == " rows" then ParseNat(s[10..|s| - 5])
    else None
  }

  lemma SummaryRoundTrip(n: nat)
    ensures ParseSummary(Summary(n)) == Some(n)
  {
    var d := NatToString(n);
    var s := Summary(n);
    assert s[10..|s| - 5] == d;
    assert s[..10] == "Retrieved ";
    assert s[|s| - 5..] == " rows";
    ParseNatToString(n);
  }

  /** Node A: store the id the client returned, mark the query RUNNING and
      restart the poll count. */
  function SubmitAthenaQuery(s: AgentState, queryId: string): (r: AgentState)
    ensures r.queryExecutionId == queryId
    ensures ParseStatus(r.athenaStatus) == Some(Running)
    ensures r.retryCount == 0
    ensures SameRequest(s, r) && r.analysisResult == s.analysisResult
  {
    s.(queryExecutionId := queryId, athenaStatus := StatusValue(Running), retryCount := 0)
  }

  /** Node B: record the status the client reported and count the poll. */
  function PollAthenaStatus(s: AgentState, observed: QueryStatus): (r: AgentState)
    ensures r.retryCount == s.retryCount + 1
    ensures ParseStatus(r.athenaStatus) == Some(observed)
    ensures SameRequest(s, r) && r.queryExecutionId == s.queryExecutionId
    ensures r.analysisResult == s.analysisResult
  {
    s.(athenaStatus := StatusValue(observed), retryCount := s.retryCount + 1)
  }

  /** Node C: shape the fetched rows into the analysis record. */
  function FetchAthenaResults(s: AgentState, rows: seq<Row>): (r: AgentState)
    ensures r.analysisResult.Analysis?
    ensures r.analysisResult.data == rows
    ensures r.analysisResult.totalRows == |r.analysisResult.data|
    ensures r.analysisResult.summary == Summary(|rows|)
    ensures ParseSummary(r.analysisResult.summary) == Some(|rows|)
    ensures r.(analysisResult := s.analysisResult) == s
  {
    SummaryRoundTrip(|rows|);
    s.(analysisResult := Analysis(|rows|, Summary(|rows|), rows))
  }

  /** The conditional edge out of the poll node. The status is consulted
      before the budget, so a SUCCEEDED or FAILED report decides the route
      whatever the retry count. */
  function ShouldContinuePolling(s: AgentState): (n: Next)
    ensures n == FetchResults <==> s.athenaStatus == "SUCCEEDED"
    ensures n == End <==>
      s.athenaStatus != "SUCCEEDED" && (s.athenaStatus == "FAILED" || s.retryCount >= s.maxRetries)
    ensures n == PollStatus <==>
      s.athenaStatus != "SUCCEEDED" && s.athenaStatus != "FAILED" && s.retryCount < s.maxRetries
  {
    if s.athenaStatus == StatusValue(Succeeded) then FetchResults
    else if s.athenaStatus == StatusValue(Failed) then End
    else if s.retryCount >= s.maxRetries then End
    else PollStatus
  }

  /** The graph entered at the poll node: poll, route, and either fetch,
      stop, or wait and poll again; a negative wait raises instead. The
      retry budget bounds the recursion. */
  function RunFromPoll(s: AgentState, b: Backend, interval: int): (r: Run)
    requires s.retryCount >= 0
    ensures |r.events| >= 1 && r.events[0] == StatusCall(s.queryExecutionId)
    ensures r.final.Ok? ==>
      var f := r.final.value;
      && s.retryCount < f.retryCount
      && (f.retryCount == s.retryCount + 1 || f.retryCount <= s.maxRetries)
      && (f.athenaStatus == "SUCCEEDED" || f.athenaStatus == "FAILED" || f.retryCount >= s.maxRetries)
      && SameRequest(s, f)
      && f.queryExecutionId == s.queryExecutionId
    decreases s.maxRetries - s.retryCount
  {
    var call := StatusCall(s.queryExecutionId);
    match b.statusReply(s.retryCount + 1)
    case Err(e) => Run([call], Err(e))
    case Ok(observed) =>
      var s' := PollAthenaStatus(s, observed);
      match ShouldContinuePolling(s')
      case FetchResults =>
        var fetched := [call, ResultsCall(s'.queryExecutionId)];
        (match b.resultsReply
         case Err(e) => Run(fetched, Err(e))
         case Ok(rows) => Run(fetched, Ok(FetchAthenaResults(s', rows))))
      case End => Run([call], Ok(s'))
      case PollStatus =>
        if interval < 0 then Run([call], Err(NegativeSleepMessage))
        else
          var rest := RunFromPoll(s', b, interval);
          Run([call, Wait(interval)] + rest.events, rest.final)
  }

  /** The compiled graph: the entry node submits, the unconditional edge
      leads to the poll node, and the fetch node leads to the end. */
  function RunGraph(init: AgentState, b: Backend, sleepSeconds: int, interval: int): (r: Run)
    ensures |r.events| >= 1 && r.events[0] == SubmitCall(init.sqlQuery, sleepSeconds)
    ensures b.submitReply.Err? ==> r == Run([SubmitCall(init.sqlQuery, sleepSeconds)], Err(b.submitReply.error))
    ensures r.final.Ok? ==>
      var f := r.final.value;
      && b.submitReply.Ok?
      && f.queryExecutionId == b.submitReply.value
      && 1 <= f.retryCount
      && (f.retryCount == 1 || f.retryCount <= init.maxRetries)
      && SameRequest(init, f)
  {
    var submit := SubmitCall(init.sqlQuery, sleepSeconds);
    match b.submitReply
    case Err(e) => Run([submit], Err(e))
    case Ok(id) =>
      var rest := RunFromPoll(SubmitAthenaQuery(init, id), b, interval);
      Run([submit] + rest.events, rest.final)
  }

  /** The graph exactly as agent.py builds it. */
  function RunAgentGraph(init: AgentState, b: Backend): Run {
    RunGraph(init, b, SubmitSleepSeconds, PollIntervalSeconds)
  }

  /** agent.py's graph asks the mock for a 100-tick job and waits 2 ticks
      before every poll but the first. */
  lemma AgentGraphTiming(init: AgentState, b: Backend)
    ensures RunAgentGraph(init, b).events[0] == SubmitCall(init.sqlQuery, SubmitSleepSeconds)
    ensures var ev := RunAgentGraph(init, b).events;
      forall k :: 0 <= k < |ev| && ev[k].Wait? ==> ev[k].seconds == PollIntervalSeconds
  {
    if b.submitReply.Ok? {
      RunGraphPolls(init, b, SubmitSleepSeconds, PollIntervalSeconds);
      var ev := RunAgentGraph(init, b).events;
      var polled := PollEvents(b.submitReply.value, StopPoll(b, 0, init.maxRetries, PollIntervalSeconds), PollIntervalSeconds);
      forall k | 0 <= k < |ev| && ev[k].Wait?
        ensures ev[k].seconds == PollIntervalSeconds
      {
        if 1 <= k < 1 + |polled| {
          assert ev[k] == polled[k - 1];
        }
      }
    }
  }

  /** The events of `n` polls for one id: status calls with a wait between
      each two of them. */
  function PollEvents(id: string, n: nat, interval: int): (ev: seq<Event>)
    ensures |ev| == if n == 0 then 0 else 2 * n - 1
    ensures forall k :: 0 <= k < |ev| ==> ev[k] == if k % 2 == 0 then StatusCall(id) else Wait(interval)
    decreases n
  {
    if n == 0 then []
    else if n == 1 then [StatusCall(id)]
    else [StatusCall(id), Wait(interval)] + PollEvents(id, n - 1, interval)
  }

  /** The number of status calls among the events. */
  function StatusCalls(ev: seq<Event>): nat
    decreases |ev|
  {
    if |ev| == 0 then 0 else (if ev[0].StatusCall? then 1 else 0) + StatusCalls(ev[1..])
  }

  /** The number of results calls among the events. */
  function ResultsCalls(ev: seq<Event>): nat
    decreases |ev|
  {
    if |ev| == 0 then 0 else (if ev[0].ResultsCall? then 1 else 0) + ResultsCalls(ev[1..])
  }

  lemma {:induction false} CallsAppend(a: seq<Event>, b: seq<Event>)
    ensures StatusCalls(a + b) == StatusCalls(a) + StatusCalls(b)
    ensures ResultsCalls(a + b) == ResultsCalls(a) + ResultsCalls(b)
    decreases |a|
  {
    if |a| == 0 {
      assert a + b == b;
    } else {
      CallsAppend(a[1..], b);
      assert (a + b)[0] == a[0];
      assert (a + b)[1..] == a[1..] + b;
    }
  }

  /** `n` polls are `n` status calls and no results call. */
  lemma {:induction false} PollEventsCalls(id: string, n: nat, interval: int)
    ensures StatusCalls(PollEvents(id, n, interval)) == n
    ensures ResultsCalls(PollEvents(id, n, interval)) == 0
    decreases n
  {
    if n > 1 {
      PollEventsCalls(id, n - 1, interval);
      CallsAppend([StatusCall(id), Wait(interval)], PollEvents(id, n - 1, interval));
      assert [StatusCall(id), Wait(interval)][1..] == [Wait(interval)];
    }
  }

  /** The poll at which a loop that has made `c` polls stops: the first
      later poll whose reply is not RUNNING, or the first one to use up the
      budget; the poll right after submission always happens. With a
      negative interval the first wait raises, so the next poll is the last. */
  function StopPoll(b: Backend, c: nat, maxRetries: int, interval: int): (p: nat)
    ensures c < p
    ensures p == c + 1 || p <= maxRetries
    ensures forall j :: c < j < p ==> b.statusReply(j) == Ok(Running)
    ensures b.statusReply(p) != Ok(Running) || p >= maxRetries || interval < 0
    ensures interval < 0 ==> p == c + 1
    decreases maxRetries - c
  {
    if b.statusReply(c + 1) == Ok(Running) && c + 1 < maxRetries && interval >= 0 then
      StopPoll(b, c + 1, maxRetries, interval)
    else c + 1
  }

  /** A run from the poll node that stops at poll `p`: polls
      `s.retryCount + 1 .. p` with waits between them, then the reply to
      poll `p` decides the end: a raised error, a fetch on SUCCEEDED, the
      raising wait on RUNNING within the budget, or a stop with the
      reported status. */
  function StoppedRun(s: AgentState, b: Backend, interval: int, p: nat): Run
    requires s.retryCount < p
  {
    var polled := PollEvents(s.queryExecutionId, p - s.retryCount, interval);
    match b.statusReply(p)
    case Err(e) => Run(polled, Err(e))
    case Ok(st) =>
      var f := s.(athenaStatus := StatusValue(st), retryCount := p);
      if st == Succeeded then
        var fetched := polled + [ResultsCall(s.queryExecutionId)];
        match b.resultsReply
        case Err(e) => Run(fetched, Err(e))
        case Ok(rows) => Run(fetched, Ok(FetchAthenaResults(f, rows)))
      else if st == Running && p < s.maxRetries then
        Run(polled, Err(NegativeSleepMessage))
      else
        Run(polled, Ok(f))
  }

  /** A poll after which the router does not come back to the poll node
      already ends the run the way `StoppedRun` says. */
  lemma LastPoll(s: AgentState, b: Backend, interval: int)
    requires s.retryCount >= 0
    requires !(b.statusReply(s.retryCount + 1) == Ok(Running) && s.retryCount + 1 < s.maxRetries && interval >= 0)
    ensures RunFromPoll(s, b, interval) == StoppedRun(s, b, interval, s.retryCount + 1)
  {
  }

  /** A RUNNING report within budget sends the run back to the poll node
      after a wait, and a run that stops later starts with that same poll
      and wait. */
  lemma PollAgain(s: AgentState, b: Backend, interval: int, p: nat)
    requires s.retryCount >= 0
    requires b.statusReply(s.retryCount + 1) == Ok(Running) && s.retryCount + 1 < s.maxRetries
    requires interval >= 0
    requires s.retryCount + 1 < p
    ensures var s' := PollAthenaStatus(s, Running);
      var prefix := [StatusCall(s.queryExecutionId), Wait(interval)];
      && RunFromPoll(s, b, interval) == Run(prefix + RunFromPoll(s', b, interval).events, RunFromPoll(s', b, interval).final)
      && StoppedRun(s, b, interval, p) == Run(prefix + StoppedRun(s', b, interval, p).events, StoppedRun(s', b, interval, p).final)
  {
  }

  /** The loop of the graph is the run that stops at `StopPoll`. */
  lemma {:induction false} RunFromPollStops(s: AgentState, b: Backend, interval: int)
    requires s.retryCount >= 0
    ensures RunFromPoll(s, b, interval) == StoppedRun(s, b, interval, StopPoll(b, s.retryCount, s.maxRetries, interval))
    decreases s.maxRetries - s.retryCount
  {
    var c := s.retryCount;
    if b.statusReply(c + 1) == Ok(Running) && c + 1 < s.maxRetries && interval >= 0 {
      var s' := PollAthenaStatus(s, Running);
      RunFromPollStops(s', b, interval);
      var p := StopPoll(b, c, s.maxRetries, interval);
      assert StopPoll(b, c + 1, s.maxRetries, interval) == p;
      PollAgain(s, b, interval, p);
    } else {
      LastPoll(s, b, interval);
    }
  }

  /** What every run that gets past submission does: it polls between 1 and
      max(max_retries, 1) times, always with the submitted id; it fetches at
      most once, and exactly when the last poll reported SUCCEEDED; a run
      that ends normally ends with `retry_count` equal to the number of
      polls, keeps the request fields, and holds an analysis exactly when
      it fetched; a run raises exactly when the last status or results
      request raised or the wait after a RUNNING report within the budget
      did, and then ends with that message. */
  lemma RunGraphPolls(init: AgentState, b: Backend, sleepSeconds: int, interval: int)
    requires b.submitReply.Ok?
    ensures var r := RunGraph(init, b, sleepSeconds, interval);
      var p := StopPoll(b, 0, init.maxRetries, interval);
      var id := b.submitReply.value;
      var fetched := b.statusReply(p) == Ok(Succeeded);
      var waitRaised := b.statusReply(p) == Ok(Running) && p < init.maxRetries;
      && 1 <= p && (p == 1 || p <= init.maxRetries)
      && (init.maxRetries <= 1 || interval < 0 ==> p == 1)
      && (waitRaised ==> interval < 0)
      && (r.final.Err? <==> b.statusReply(p).Err? || (fetched && b.resultsReply.Err?) || waitRaised)
      && (r.final.Err? ==>
            r.final.error == if b.statusReply(p).Err? then b.statusReply(p).error
                             else if fetched then b.resultsReply.error
                             else NegativeSleepMessage)
      && r.events == [SubmitCall(init.sqlQuery, sleepSeconds)] + PollEvents(id, p, interval)
                     + (if fetched then [ResultsCall(id)] else [])
      && StatusCalls(r.events) == p
      && ResultsCalls(r.events) == (if fetched then 1 else 0)
      && (r.final.Ok? ==>
            var f := r.final.value;
            && f.retryCount == p
            && SameRequest(init, f)
            && f.queryExecutionId == id
            && (f.athenaStatus == "SUCCEEDED" <==> fetched)
            && (f.athenaStatus == "SUCCEEDED" ==>
                  && b.resultsReply.Ok?
                  && f.analysisResult.Analysis?
                  && f.analysisResult.data == b.resultsReply.value
                  && f.analysisResult.totalRows == |f.analysisResult.data|)
            && (f.athenaStatus != "SUCCEEDED" ==> f.analysisResult == init.analysisResult))
  {
    var id := b.submitReply.value;
    var s := SubmitAthenaQuery(init, id);
    var p := StopPoll(b, 0, init.maxRetries, interval);
    RunFromPollStops(s, b, interval);
    var r := RunGraph(init, b, sleepSeconds, interval);
    var polled := PollEvents(id, p, interval);
    var submit := [SubmitCall(init.sqlQuery, sleepSeconds)];
    PollEventsCalls(id, p, interval);
    CallsAppend(submit, polled);
    CallsAppend(submit + polled, [ResultsCall(id)]);
    assert StatusCalls(submit) == 0 && ResultsCalls(submit) == 0;
    assert StatusCalls([ResultsCall(id)]) == 0 && ResultsCalls([ResultsCall(id)]) == 1;
    assert submit + polled + [] == submit + polled;
  }

  /** With every poll reporting RUNNING, the run polls exactly
      max(max_retries, 1) times, ends RUNNING, and never fetches; unless the
      interval is negative and the budget allows a second poll, in which
      case the first wait raises. */
  lemma AllRunningTimesOut(init: AgentState, b: Backend, sleepSeconds: int, interval: int)
    requires b.submitReply.Ok?
    requires forall n: nat :: n >= 1 ==> b.statusReply(n) == Ok(Running)
    ensures var r := RunGraph(init, b, sleepSeconds, interval);
      var polls := if init.maxRetries >= 1 then init.maxRetries else 1;
      && ResultsCalls(r.events) == 0
      && (interval >= 0 || polls == 1 ==>
            && r.final.Ok?
            && r.final.value.retryCount == polls
            && StatusCalls(r.events) == polls
            && r.final.value.athenaStatus == "RUNNING")
      && (interval < 0 && polls > 1 ==>
            r.final == Err(NegativeSleepMessage) && StatusCalls(r.events) == 1)
  {
    RunGraphPolls(init, b, sleepSeconds, interval);
    var p := StopPoll(b, 0, init.maxRetries, interval);
    assert b.statusReply(p) == Ok(Running);
    RunFromPollStops(SubmitAthenaQuery(init, b.submitReply.value), b, interval);
  }

  /** If polls 1 .. k-1 report RUNNING and poll k is still within the
      budget (the first poll always is) and reachable through the waits,
      the loop stops exactly at poll k whenever poll k reports something
      other than RUNNING. */
  lemma StopsAt(b: Backend, maxRetries: int, interval: int, k: nat)
    requires 1 <= k && (k == 1 || k <= maxRetries)
    requires k == 1 || interval >= 0
    requires forall j :: 1 <= j < k ==> b.statusReply(j) == Ok(Running)
    requires b.statusReply(k) != Ok(Running)
    ensures StopPoll(b, 0, maxRetries, interval) == k
  {
  }

  /** FAILED at poll k ends the run there with `retry_count == k`, status
      FAILED and no fetch; with a negative interval and k > 1 the first
      wait raises before poll k. */
  lemma FailedAtPollStops(init: AgentState, b: Backend, sleepSeconds: int, interval: int, k: nat)
    requires b.submitReply.Ok?
    requires 1 <= k && (k == 1 || k <= init.maxRetries)
    requires forall j :: 1 <= j < k ==> b.statusReply(j) == Ok(Running)
    requires b.statusReply(k) == Ok(Failed)
    ensures var r := RunGraph(init, b, sleepSeconds, interval);
      && ResultsCalls(r.events) == 0
      && (interval >= 0 || k == 1 ==>
            && r.final.Ok?
            && r.final.value.retryCount == k
            && r.final.value.athenaStatus == "FAILED"
            && StatusCalls(r.events) == k)
      && (interval < 0 && k > 1 ==>
            r.final == Err(NegativeSleepMessage) && StatusCalls(r.events) == 1)
  {
    if interval >= 0 || k == 1 {
      StopsAt(b, init.maxRetries, interval, k);
    }
    RunGraphPolls(init, b, sleepSeconds, interval);
    RunFromPollStops(SubmitAthenaQuery(init, b.submitReply.value), b, interval);
  }

  /** SUCCEEDED at poll k, the last allowed poll included, fetches exactly
      once and ends with the analysis of the fetched rows; with a negative
      interval and k > 1 the first wait raises before poll k. */
  lemma SucceededAtPollFetches(init: AgentState, b: Backend, sleepSeconds: int, interval: int, k: nat)
    requires b.submitReply.Ok? && b.resultsReply.Ok?
    requires 1 <= k && (k == 1 || k <= init.maxRetries)
    requires forall j :: 1 <= j < k ==> b.statusReply(j) == Ok(Running)
    requires b.statusReply(k) == Ok(Succeeded)
    ensures var r := RunGraph(init, b, sleepSeconds, interval);
      && (interval >= 0 || k == 1 ==>
            && r.final.Ok?
            && r.final.value.retryCount == k
            && r.final.value.athenaStatus == "SUCCEEDED"
            && StatusCalls(r.events) == k
            && ResultsCalls(r.events) == 1
            && r.final.value.analysisResult.Analysis?
            && r.final.value.analysisResult.data == b.resultsReply.value
            && r.final.value.analysisResult.totalRows == |b.resultsReply.value|)
      && (interval < 0 && k > 1 ==>
            && r.final == Err(NegativeSleepMessage)
            && StatusCalls(r.events) == 1
            && ResultsCalls(r.events) == 0)
  {
    if interval >= 0 || k == 1 {
      StopsAt(b, init.maxRetries, interval, k);
    }
    RunGraphPolls(init, b, sleepSeconds, interval);
    RunFromPollStops(SubmitAthenaQuery(init, b.submitReply.value), b, interval);
  }

  /** The graph as an explicit loop: submit, then poll while the router
      says so, waiting between polls (a negative wait raises); it performs the same run as the
      recursive definition. */
  method Execute(init: AgentState, b: Backend, sleepSeconds: int, interval: int) returns (r: Run)
    ensures r == RunGraph(init, b, sleepSeconds, interval)
  {
    var events := [SubmitCall(init.sqlQuery, sleepSeconds)];
    if b.submitReply.Err? {
      return Run(events, Err(b.submitReply.error));
    }
    var s := SubmitAthenaQuery(init, b.submitReply.value);
    while true
      invariant s.retryCount >= 0
      invariant var rest := RunFromPoll(s, b, interval);
        Run(events + rest.events, rest.final) == RunGraph(init, b, sleepSeconds, interval)
      decreases s.maxRetries - s.retryCount
    {
      var call := StatusCall(s.queryExecutionId);
      var reply := b.statusReply(s.retryCount + 1);
      if reply.Err? {
        return Run(events + [call], Err(reply.error));
      }
      var s' := PollAthenaStatus(s, reply.value);
      var next := ShouldContinuePolling(s');
      if next == FetchResults {
        events := events + [call, ResultsCall(s'.queryExecutionId)];
        if b.resultsReply.Err? {
          return Run(events, Err(b.resultsReply.error));
        }
        return Run(events, Ok(FetchAthenaResults(s', b.resultsReply.value)));
      } else if next == End {
        return Run(events + [call], Ok(s'));
      }
      if interval < 0 {
        return Run(events + [call], Err(NegativeSleepMessage));
      }
      assert events + ([call, Wait(interval)] + RunFromPoll(s', b, interval).events)
          == (events + [call, Wait(interval)]) + RunFromPoll(s', b, interval).events;
      events := events + [call, Wait(interval)];
      s := s';
    }
  }
}

=== FILE: agentcore.dfy ===
/** The hosted entry point: it reads the query and the retry budget from
    the request payload, runs the same three-node graph with durations
    taken from the configuration, and turns the final state into a tagged
    response. Environment lookups are an explicit `Config`. */
module AgentCore {

  import opened Common
  import opened Decimal
  import AthenaMock
  import opened Agent

  /** `ATHENA_MOCK_DURATION`, `POLL_INTERVAL` and `MAX_RETRIES`. */
  datatype Config = Config(mockDuration: int, pollInterval: int, maxRetries: int)

  /** The values used when the environment sets none of them. */
  const DefaultConfig := Config(10, 2, 20)

  /** The query run when the payload names none. */
  const DefaultSql := "SELECT * FROM users LIMIT 10"

  /** The keys of the request payload that the entry point reads; `None`
      is a missing key. */
  datatype Payload = Payload(sqlQuery: Option<string>, prompt: Option<string>, maxRetries: Option<int>)

  /** The response: `status` is the constructor, the other keys its fields. */
  datatype Outcome =
    | Success(queryId: string, polls: int, result: Analysis)
    | Failure(queryId: string, polls: int, error: string)
    | Timeout(queryId: string, polls: int, error: string)
    | Error(error: string)

  /** The `status` string of the response. */
  function StatusField(o: Outcome): string {
    match o
    case Success(_, _, _) => "success"
    case Failure(_, _, _) => "failed"
    case Timeout(_, _, _) => "timeout"
    case Error(_) => "error"
  }

  const FailedMessage := "Query execution failed"

  function TimeoutMessage(maxRetries: int): string {
    "Query timed out after " + IntToString(maxRetries) + " polling attempts"
  }

  /** Reads the budget back out of a timeout message. */
  function ParseTimeoutMessage(s: string): Option<int> {
    if |s| >= 39 && s[..22] == "Query timed out after " && s[|s| - 17..] == " polling attempts" then
      ParseInt(s[22..|s| - 17])
    else None
  }

  lemma TimeoutMessageRoundTrip(m: int)
    ensures ParseTimeoutMessage(TimeoutMessage(m)) == Some(m)
  {
    var d := IntToString(m);
    var s := TimeoutMessage(m);
    assert s[22..|s| - 17] == d;
    assert s[..22] == "Query timed out after ";
    assert s[|s| - 17..] == " polling attempts";
    ParseIntToString(m);
  }

  /** `payload.get("sql_query") or payload.get("prompt", default)`: a
      non-empty `sql_query` wins; otherwise a present `prompt` is used even
      when it is empty, and only a missing one falls back to the default. */
  function QueryOf(p: Payload): (q: string)
    ensures p.sqlQuery.Some? && p.sqlQuery.value != "" ==> q == p.sqlQuery.value
    ensures Some(q) == p.sqlQuery || Some(q) == p.prompt || q == DefaultSql
    ensures q == "" ==> (p.sqlQuery.None? || p.sqlQuery == Some("")) && p.prompt == Some("")
    ensures (p.sqlQuery.None? || p.sqlQuery == Some("")) && p.prompt.Some? ==> q == p.prompt.value
    ensures (p.sqlQuery.None? || p.sqlQuery == Some("")) && p.prompt.None? ==> q == DefaultSql
  {
    if p.sqlQuery.Some? && p.sqlQuery.value != "" then p.sqlQuery.value
    else if p.prompt.Some? then p.prompt.value
    else DefaultSql
  }

  /** `payload.get("max_retries", default)`: any value the payload carries,
      otherwise the configured budget. */
  function MaxRetriesOf(p: Payload, c: Config): (m: int)
    ensures p.maxRetries.Some? ==> m == p.maxRetries.value
    ensures p.maxRetries.None? ==> m == c.maxRetries
  {
    match p.maxRetries
    case Some(m) => m
    case None => c.maxRetries
  }

  /** The state the entry point hands to the graph: the request fields
      from the payload, and no id, no status, no polls, no analysis. */
  function InitialState(p: Payload, c: Config): (s: AgentState)
    ensures s.sqlQuery == QueryOf(p) && s.maxRetries == MaxRetriesOf(p, c)
    ensures s.queryExecutionId == "" && s.athenaStatus == "" && s.error == ""
    ensures s.retryCount == 0 && s.analysisResult == NoAnalysis
  {
    AgentState(QueryOf(p), "", "", 0, MaxRetriesOf(p, c), NoAnalysis, "")
  }

  /** The response for the graph's final state, or for the exception that
      ended the graph. */
  function Classify(final: Result<AgentState, string>, maxRetries: int): (o: Outcome)
    ensures o.Error? <==> final.Err?
    ensures o.Error? ==> o.error == final.error
    ensures StatusField(o) == "error" <==> final.Err?
    ensures StatusField(o) == "success" <==> final.Ok? && final.value.athenaStatus == "SUCCEEDED"
    ensures StatusField(o) == "failed" <==> final.Ok? && final.value.athenaStatus == "FAILED"
    ensures final.Ok? ==>
      var f := final.value;
      && !o.Error?
      && o.queryId == f.queryExecutionId
      && o.polls == f.retryCount
      && (o.Success? <==> f.athenaStatus == "SUCCEEDED")
      && (o.Failure? <==> f.athenaStatus == "FAILED")
      && (o.Timeout? <==> f.athenaStatus != "SUCCEEDED" && f.athenaStatus != "FAILED")
      && (o.Success? ==> o.result == f.analysisResult)
      && (o.Failure? ==> o.error == FailedMessage)
      && (o.Timeout? ==> o.error == TimeoutMessage(maxRetries))
      && (o.Timeout? ==> ParseTimeoutMessage(o.error) == Some(maxRetries))
  {
    match final
    case Err(e) => Error(e)
    case Ok(f) =>
      if f.athenaStatus == "SUCCEEDED" then Success(f.queryExecutionId, f.retryCount, f.analysisResult)
      else if f.athenaStatus == "FAILED" then Failure(f.queryExecutionId, f.retryCount, FailedMessage)
      else
        TimeoutMessageRoundTrip(maxRetries);
        Timeout(f.queryExecutionId, f.retryCount, TimeoutMessage(maxRetries))
  }

  /** The graph run by the entry point. */
  function InvokeRun(p: Payload, c: Config, b: Backend): Run {
    RunGraph(InitialState(p, c), b, c.mockDuration, c.pollInterval)
  }

  /** `invoke(payload)`. */
  function Invoke(p: Payload, c: Config, b: Backend): (o: Outcome)
    ensures o.Error? <==> InvokeRun(p, c, b).final.Err?
    ensures o.Error? ==> o.error == InvokeRun(p, c, b).final.error
    ensures b.submitReply.Err? ==> o == Error(b.submitReply.error)
    ensures !o.Error? ==>
      && b.submitReply.Ok?
      && o.queryId == b.submitReply.value
      && 1 <= o.polls
      && (o.polls == 1 || o.polls <= MaxRetriesOf(p, c))
  {
    Classify(InvokeRun(p, c, b).final, MaxRetriesOf(p, c))
  }

  /** What every response says about the run behind it. A rejected
      submission is an error carrying the raised message. Otherwise the
      response reports the poll at which the loop stopped, between 1 and
      max(budget, 1); success only follows a SUCCEEDED report and carries
      the fetched rows with their count; failure only follows a FAILED
      report; timeout only follows a RUNNING report with the budget spent;
      an error follows a raised status or results request, or a RUNNING
      report within the budget whose wait raised on a negative interval. */
  lemma InvokeReportsStopPoll(p: Payload, c: Config, b: Backend)
    ensures b.submitReply.Err? ==> Invoke(p, c, b) == Error(b.submitReply.error)
    ensures b.submitReply.Ok? ==>
      var o := Invoke(p, c, b);
      var m := MaxRetriesOf(p, c);
      var k := StopPoll(b, 0, m, c.pollInterval);
      && (!o.Error? ==> o.queryId == b.submitReply.value && o.polls == k)
      && 1 <= k && (k == 1 || k <= m)
      && (c.pollInterval < 0 ==> k == 1)
      && (o.Success? ==>
            && b.statusReply(k) == Ok(AthenaMock.Succeeded)
            && b.resultsReply.Ok?
            && o.result.Analysis?
            && o.result.data == b.resultsReply.value
            && o.result.totalRows == |o.result.data|)
      && (o.Failure? ==> b.statusReply(k) == Ok(AthenaMock.Failed))
      && (o.Timeout? ==> b.statusReply(k) == Ok(AthenaMock.Running) && k >= m)
      && (o.Error? <==>
            || b.statusReply(k).Err?
            || (b.statusReply(k) == Ok(AthenaMock.Succeeded) && b.resultsReply.Err?)
            || (b.statusReply(k) == Ok(AthenaMock.Running) && k < m))
      && (o.Error? ==>
            o.error == if b.statusReply(k).Err? then b.statusReply(k).error
                       else if b.statusReply(k) == Ok(AthenaMock.Succeeded) then b.resultsReply.error
                       else NegativeSleepMessage)
  {
    if b.submitReply.Ok? {
      var init := InitialState(p, c);
      RunGraphPolls(init, b, c.mockDuration, c.pollInterval);
      RunFromPollStops(SubmitAthenaQuery(init, b.submitReply.value), b, c.pollInterval);
    }
  }

  /** A backend that never reports FAILED, as the mock never does, never
      yields a "failed" response. */
  lemma NoFailedReportNoFailure(p: Payload, c: Config, b: Backend)
    requires forall n: nat :: n >= 1 ==> b.statusReply(n) != Ok(AthenaMock.Failed)
    ensures !Invoke(p, c, b).Failure?
  {
    InvokeReportsStopPoll(p, c, b);
  }

  /** A query that stays RUNNING times out after max(budget, 1) polls,
      unless a negative interval makes the first wait raise. */
  lemma InvokeTimesOut(p: Payload, c: Config, b: Backend)
    requires b.submitReply.Ok?
    requires forall n: nat :: n >= 1 ==> b.statusReply(n) == Ok(AthenaMock.Running)
    ensures var m := MaxRetriesOf(p, c);
      var o := Invoke(p, c, b);
      && (c.pollInterval >= 0 || m <= 1 ==>
            o == Timeout(b.submitReply.value, if m >= 1 then m else 1, TimeoutMessage(m)))
      && (c.pollInterval < 0 && m > 1 ==> o == Error(NegativeSleepMessage))
  {
    var init := InitialState(p, c);
    AllRunningTimesOut(init, b, c.mockDuration, c.pollInterval);
    RunGraphPolls(init, b, c.mockDuration, c.pollInterval);
  }

  /** FAILED at poll k within the budget gives a "failed" response with k
      polls, unless a negative interval makes the first wait raise. */
  lemma InvokeFailsAt(p: Payload, c: Config, b: Backend, k: nat)
    requires b.submitReply.Ok?
    requires 1 <= k && (k == 1 || k <= MaxRetriesOf(p, c))
    requires forall j :: 1 <= j < k ==> b.statusReply(j) == Ok(AthenaMock.Running)
    requires b.statusReply(k) == Ok(AthenaMock.Failed)
    ensures c.pollInterval >= 0 || k == 1 ==> Invoke(p, c, b) == Failure(b.submitReply.value, k, FailedMessage)
    ensures c.pollInterval < 0 && k > 1 ==> Invoke(p, c, b) == Error(NegativeSleepMessage)
  {
    var init := InitialState(p, c);
    FailedAtPollStops(init, b, c.mockDuration, c.pollInterval, k);
    RunGraphPolls(init, b, c.mockDuration, c.pollInterval);
  }

  /** SUCCEEDED at poll k within the budget gives a "success" response with
      k polls whose result counts and carries the fetched rows, unless a
      negative interval makes the first wait raise. */
  lemma InvokeSucceedsAt(p: Payload, c: Config, b: Backend, k: nat)
    requires b.submitReply.Ok? && b.resultsReply.Ok?
    requires 1 <= k && (k == 1 || k <= MaxRetriesOf(p, c))
    requires forall j :: 1 <= j < k ==> b.statusReply(j) == Ok(AthenaMock.Running)
    requires b.statusReply(k) == Ok(AthenaMock.Succeeded)
    ensures var o := Invoke(p, c, b);
      && (c.pollInterval >= 0 || k == 1 ==>
            && o.Success?
            && o.queryId == b.submitReply.value
            && o.polls == k
            && o.result.Analysis?
            && o.result.data == b.resultsReply.value
            && o.result.totalRows == |b.resultsReply.value|)
      && (c.pollInterval < 0 && k > 1 ==> o == Error(NegativeSleepMessage))
  {
    var init := InitialState(p, c);
    SucceededAtPollFetches(init, b, c.mockDuration, c.pollInterval, k);
    RunGraphPolls(init, b, c.mockDuration, c.pollInterval);
  }

  /** An empty payload under the default configuration runs the default
      query, asks the mock for a 10-tick job, and, if the job never
      finishes, gives up after 20 polls. */
  lemma EmptyPayloadUsesDefaults(b: Backend)
    requires b.submitReply.Ok?
    requires forall n: nat :: n >= 1 ==> b.statusReply(n) == Ok(AthenaMock.Running)
    ensures InvokeRun(Payload(None, None, None), DefaultConfig, b).events[0] == SubmitCall(DefaultSql, 10)
    ensures Invoke(Payload(None, None, None), DefaultConfig, b)
         == Timeout(b.submitReply.value, 20, "Query timed out after 20 polling attempts")
  {
    var p := Payload(None, None, None);
    InvokeTimesOut(p, DefaultConfig, b);
    DefaultTimeoutMessage();
  }

  lemma DefaultTimeoutMessage()
    ensures TimeoutMessage(20) == "Query timed out after 20 polling attempts"
  {
  }
}

=== FILE: athena_mock.dfy ===
/** The mock query service: a table of jobs keyed by id whose jobs report
    completion once a fixed number of clock ticks has elapsed since
    submission. Wall-clock time is an integer `now` argument; the random
    UUID is replaced by an id that is fresh for the table. */
module AthenaMock {

  import opened Common

  datatype QueryStatus = Running | Succeeded | Failed

  /** The enum's string value, which is what the agent stores in its state. */
  function StatusValue(st: QueryStatus): (v: string)
    ensures ParseStatus(v) == Some(st)
    ensures |v| > 0
  {
    match st
    case Running => "RUNNING"
    case Succeeded => "SUCCEEDED"
    case Failed => "FAILED"
  }

  /** `QueryStatus(v)`: the member whose value is `v`, if any. */
  function ParseStatus(v: string): Option<QueryStatus> {
    if v == "RUNNING" then Some(Running)
    else if v == "SUCCEEDED" then Some(Succeeded)
    else if v == "FAILED" then Some(Failed)
    else None
  }

  /** One result row: the mock produces rows with these three columns. */
  datatype Row = Row(id: int, name: string, value: int)

  /** The fixed rows every completed mock query returns. */
  function MockRows(): seq<Row> {
    [Row(1, "Alice", 100), Row(2, "Bob", 200), Row(3, "Charlie", 300)]
  }

  /** One entry of the `queries` dictionary. */
  datatype Job = Job(sql: string, status: QueryStatus, startTime: int, sleepDuration: int,
                     results: Option<seq<Row>>)

  type Table = map<string, Job>

  /** The two `ValueError`s the mock raises. */
  datatype MockError = NotFound(queryId: string) | NotYetCompleted(queryId: string)

  /** Results are present exactly when the job has succeeded, they are the
      mock rows, and the mock never marks a job FAILED. */
  predicate JobValid(j: Job) {
    && (j.results.Some? <==> j.status == Succeeded)
    && j.status != Failed
    && (j.results.Some? ==> j.results.value == MockRows())
  }

  predicate Valid(t: Table) {
    forall id :: id in t ==> JobValid(t[id])
  }

  /** Two jobs are the same submission: only status and results may differ. */
  predicate SameSubmission(j: Job, k: Job) {
    j.sql == k.sql && j.startTime == k.startTime && j.sleepDuration == k.sleepDuration
  }

  /** An id that no entry of the table uses: one character longer than
      the longest id present. */
  method FreshId(t: Table) returns (id: string)
    ensures id !in t
    ensures |id| > 0
  {
    var pending := t.Keys;
    var longest: nat := 0;
    while pending != {}
      invariant pending <= t.Keys
      invariant forall k :: k in t && k !in pending ==> |k| <= longest
      decreases pending
    {
      var k :| k in pending;
      if |k| > longest {
        longest := |k|;
      }
      pending := pending - {k};
    }
    id := seq(longest + 1, _ => 'q');
  }

  /** The entry `ExecuteSQL` stores under the new id. */
  function NewJob(sql: string, sleepSeconds: int, now: int): (j: Job)
    ensures JobValid(j)
    ensures j.status == Running
  {
    Job(sql, Running, now, sleepSeconds, None)
  }

  /** `ExecuteSQL`: registers a RUNNING job under a fresh id and returns the id. */
  method ExecuteSQL(t: Table, sql: string, sleepSeconds: int, now: int) returns (t': Table, id: string)
    ensures id !in t && |id| > 0
    ensures t'.Keys == t.Keys + {id}
    ensures t'[id].status == Running && t'[id].results == None
    ensures t'[id].sql == sql && t'[id].startTime == now && t'[id].sleepDuration == sleepSeconds
    ensures forall k :: k in t ==> t'[k] == t[k]
    ensures Valid(t) ==> Valid(t')
  {
    id := FreshId(t);
    t' := t[id := NewJob(sql, sleepSeconds, now)];
  }

  /** `get_query_status` at tick `now`: the status to report and the table
      after the call, which marks the job SUCCEEDED once its duration has
      elapsed. */
  function GetQueryStatus(t: Table, id: string, now: int): (r: Result<(QueryStatus, Table), MockError>)
    ensures r.Err? <==> id !in t
    ensures r.Err? ==> r.error == NotFound(id)
    ensures r.Ok? ==>
      var (st, t') := r.value;
      && t'.Keys == t.Keys
      && (forall k :: k in t && k != id ==> t'[k] == t[k])
      && SameSubmission(t'[id], t[id])
      && t'[id].status == st
      && (st == Succeeded <==> t[id].status == Succeeded || now - t[id].startTime >= t[id].sleepDuration)
      && (st != Succeeded ==> t'[id] == t[id])
      && (Valid(t) ==> Valid(t') && st != Failed)
  {
    if id !in t then Err(NotFound(id))
    else
      var j := t[id];
      if now - j.startTime >= j.sleepDuration then
        Ok((Succeeded, t[id := j.(status := Succeeded, results := Some(MockRows()))]))
      else
        Ok((j.status, t))
  }

  /** `get_query_results`: the stored rows of a SUCCEEDED job, or the error
      raised for an unknown or unfinished one. */
  function GetQueryResults(t: Table, id: string): (r: Result<seq<Row>, MockError>)
    requires Valid(t)
    ensures r == Err(NotFound(id)) <==> id !in t
    ensures r == Err(NotYetCompleted(id)) <==> id in t && t[id].status != Succeeded
    ensures r.Ok? <==> id in t && t[id].status == Succeeded
    ensures r.Ok? ==> id in t && t[id].results == Some(r.value)
    ensures r.Ok? ==> |r.value| == 3 && r.value[0].name == "Alice"
  {
    if id !in t then Err(NotFound(id))
    else if t[id].status != Succeeded then Err(NotYetCompleted(id))
    else Ok(t[id].results.value)
  }

  /** The statuses reported by successive `get_query_status` calls for one id
      at the ticks in `clock`, threading the table through the calls. */
  function StatusHistory(t: Table, id: string, clock: seq<int>): Result<seq<QueryStatus>, MockError>
    decreases |clock|
  {
    if |clock| == 0 then Ok([])
    else
      match GetQueryStatus(t, id, clock[0])
      case Err(e) => Err(e)
      case Ok((st, t')) =>
        match StatusHistory(t', id, clock[1..])
        case Err(e) => Err(e)
        case Ok(rest) => Ok([st] + rest)
  }

  /** The job has reached its duration at one of the first `i + 1` ticks. */
  predicate DueBy(j: Job, clock: seq<int>, i: int)
    requires i < |clock|
  {
    exists k :: 0 <= k <= i && clock[k] - j.startTime >= j.sleepDuration
  }

  /** For a known job of a valid table, every call answers; the answer at
      call `i` is SUCCEEDED exactly when the job had already succeeded or
      its duration had elapsed at some tick up to `i`; and no call reports
      FAILED. Monotonicity follows: once SUCCEEDED, always SUCCEEDED. */
  lemma {:induction false} StatusHistoryCharacterized(t: Table, id: string, clock: seq<int>)
    requires Valid(t) && id in t
    ensures StatusHistory(t, id, clock).Ok?
    ensures var h := StatusHistory(t, id, clock).value;
      && |h| == |clock|
      && (forall i :: 0 <= i < |h| ==> h[i] != Failed)
      && (forall i :: 0 <= i < |h| ==>
            (h[i] == Succeeded <==> t[id].status == Succeeded || DueBy(t[id], clock, i)))
    decreases |clock|
  {
    if |clock| > 0 {
      var (st, t') := GetQueryStatus(t, id, clock[0]).value;
      StatusHistoryCharacterized(t', id, clock[1..]);
      var rest := StatusHistory(t', id, clock[1..]).value;
      var h := StatusHistory(t, id, clock).value;
      assert h == [st] + rest;
      forall i | 0 <= i < |h|
        ensures h[i] == Succeeded <==> t[id].status == Succeeded || DueBy(t[id], clock, i)
      {
        if i > 0 {
          assert h[i] == rest[i - 1];
          if DueBy(t'[id], clock[1..], i - 1) {
            var k :| 0 <= k <= i - 1 && clock[1..][k] - t'[id].startTime >= t'[id].sleepDuration;
            assert clock[k + 1] == clock[1..][k];
          }
          if DueBy(t[id], clock, i) {
            var k :| 0 <= k <= i && clock[k] - t[id].startTime >= t[id].sleepDuration;
            if k > 0 {
              assert clock[1..][k - 1] == clock[k];
              assert DueBy(t'[id], clock[1..], i - 1);
            }
          }
        } else {
          if DueBy(t[id], clock, 0) {
            var k :| 0 <= k <= 0 && clock[k] - t[id].startTime >= t[id].sleepDuration;
          }
        }
      }
    }
  }

  /** Once a call has reported SUCCEEDED, every later call does too. */
  lemma StatusMonotone(t: Table, id: string, clock: seq<int>, i: int, j: int)
    requires Valid(t) && id in t
    requires 0 <= i <= j < |clock|
    ensures StatusHistory(t, id, clock).Ok?
    ensures |StatusHistory(t, id, clock).value| == |clock|
    ensures StatusHistory(t, id, clock).value[i] == Succeeded ==> StatusHistory(t, id, clock).value[j] == Succeeded
  {
    StatusHistoryCharacterized(t, id, clock);
    var h := StatusHistory(t, id, clock).value;
    if h[i] == Succeeded && t[id].status != Succeeded {
      var k :| 0 <= k <= i && clock[k] - t[id].startTime >= t[id].sleepDuration;
      assert DueBy(t[id], clock, j);
    }
  }

  /** A job submitted with duration 0 reports SUCCEEDED on its first status
      check at or after the submission tick, after which its results are the
      three mock rows, the first for Alice. */
  lemma ZeroDurationCompletesAtOnce(t: Table, id: string, sql: string, now: int, later: int)
    requires Valid(t) && id !in t
    requires later >= now
    ensures var t1 := t[id := NewJob(sql, 0, now)];
      && GetQueryStatus(t1, id, later).Ok?
      && GetQueryStatus(t1, id, later).value.0 == Succeeded
      && var t2 := GetQueryStatus(t1, id, later).value.1;
         Valid(t2) && GetQueryResults(t2, id) == Ok(MockRows())
  {
  }
}

=== FILE: common.dfy ===
/** Failure-carrying wrappers shared by every module of the model. */
module Common {

  /** A value that may be absent: a missing key of a JSON payload, or a job's
      results before the job has succeeded. */
  datatype Option<+T> = None | Some(value: T)

  /** The outcome of a call that may raise: `Err` carries what was raised. */
  datatype Result<+T, +E> = Ok(value: T) | Err(error: E)
}

=== FILE: decimal.dfy ===
/** Decimal rendering of integers, as Python's f-string formatting does it,
    together with the parser that inverts it. */
module Decimal {

  import opened Common

  predicate IsDigit(c: char) {
    '0' <= c <= '9'
  }

  predicate AllDigits(s: string) {
    forall i :: 0 <= i < |s| ==> IsDigit(s[i])
  }

  function DigitChar(d: nat): (c: char)
    requires d < 10
    ensures IsDigit(c)
    ensures c as int - '0' as int == d
  {
    ('0' as int + d) as char
  }

  /** `str(n)` for a non-negative Python int: the shortest decimal numeral. */
  function NatToString(n: nat): (s: string)
    ensures |s| >= 1
    ensures AllDigits(s)
    ensures |s| > 1 ==> s[0] != '0'
    decreases n
  {
    if n < 10 then [DigitChar(n)] else NatToString(n / 10) + [DigitChar(n % 10)]
  }

  /** `str(i)` for any Python int: a minus sign in front of negative values. */
  function IntToString(i: int): (s: string)
    ensures |s| >= 1
    ensures i >= 0 <==> AllDigits(s)
  {
    if i < 0 then
      var s := "-" + NatToString(-i);
      assert !IsDigit(s[0]);
      s
    else
      NatToString(i)
  }

  /** The value of a string of decimal digits, most significant first. */
  function DigitsValue(s: string): nat
    requires AllDigits(s)
    decreases |s|
  {
    if |s| == 0 then 0 else 10 * DigitsValue(s[..|s| - 1]) + (s[|s| - 1] as int - '0' as int)
  }

  /** `int(s)` restricted to unsigned numerals; `None` where Python raises. */
  function ParseNat(s: string): Option<nat> {
    if |s| > 0 && AllDigits(s) then Some(DigitsValue(s)) else None
  }

  /** `int(s)` for an optionally negative numeral; `None` where Python raises. */
  function ParseInt(s: string): Option<int> {
    if |s| > 0 && s[0] == '-' then
      match ParseNat(s[1..])
      case Some(n) => Some(-(n as int))
      case None => None
    else
      match ParseNat(s)
      case Some(n) => Some(n)
      case None => None
  }

  /** Rendering then parsing gives the number back. */
  lemma {:induction false} ParseNatToString(n: nat)
    ensures ParseNat(NatToString(n)) == Some(n)
    decreases n
  {
    var s := NatToString(n);
    if n >= 10 {
      ParseNatToString(n / 10);
      assert s[..|s| - 1] == NatToString(n / 10);
      assert s[|s| - 1] == DigitChar(n % 10);
      assert DigitsValue(s) == 10 * (n / 10) + n % 10;
    }
  }

  /** Rendering then parsing gives the integer back, negative ones included. */
  lemma ParseIntToString(i: int)
    ensures ParseInt(IntToString(i)) == Some(i)
  {
    var s := IntToString(i);
    if i < 0 {
      ParseNatToString(-i);
      assert s[1..] == NatToString(-i);
    } else {
      ParseNatToString(i);
    }
  }
}
